=== FILE: README.md ===
# Ideas listing page: query transitions and lazy image loading

This project models the two pieces of logic of a React page that lists
"Ideas" articles from a paged content API:

- **The listing query** (`src/App.jsx`). The page reads `{page, size, sort}`
  from its URL search parameters and fills in defaults: page 1, size 10, sort
  `-published_at`. Every control goes through `updateQuery`. It returns without
  touching the URL when the requested page is `<= 1` or the requested size is
  `<= 10`. Otherwise it replaces the URL parameters with the current query,
  overridden by the supplied fields. The controls are:
  - the page-size and sort selectors;
  - the "First" and "Last" buttons;
  - the strip of pagination links from the response's `meta.links`. Entry 0 is
    "previous", the last entry is "next", and every other entry jumps to the
    page carried in its URL.

  The request URL is built from the query as a plain string.
- **`LazyImage`** (`src/components/LazyImage.jsx`). It renders a 1x1
  placeholder until an IntersectionObserver reports the element near the
  viewport. Then it sets `imageSrc := src` and `isLoaded := true` and stops
  observing. Without observer support it loads at once.

Modules:

- `AppQuery` (`query.dfy`): URL parameters, defaults, the guarded merge and the
  request URL.
- `Pagination` (`pagination.dfy`): the controls and the URL after each one.
- `LazyImage` (`lazy_image.dfy`): the image component as a state machine.
- `Decimal` (`decimal.dfy`): the decimal text of integers in the request URL.
- `Wrappers` (`wrappers.dfy`): `Option`.

Modelling choices:

- The state of the listing page is its URL parameters (`SearchParams`).
  `None` means a missing or empty parameter, and so does the empty `sort`.
- The argument of `updateQuery` is an `Overrides` value. Each page and size
  field is `Undefined` (key absent), `Null` or `Given(n)`. This matches
  JavaScript's `<=`: `undefined <= n` is false and `null <= n` is `0 <= n`.
- A pagination link carries the page number parsed from its URL, not the URL
  itself. A URL without `page[number]` gives `null`, which the guard rejects. A
  `null` URL throws in `new URL`; that also changes nothing, so both are the
  `None` case.
- "Last" before any response has arrived throws on `data.meta`, so it changes
  nothing.
- The observer is abstracted to an `observing` flag and to entries that
  intersect or not. `mounted` records unmounting: React ignores state updates
  of an unmounted component.
- A falsy `src` prop (`undefined` or `""`) is the empty string.
- A re-render runs the effect again only when the `src` prop differs from
  the current one, as the effect's dependency list `[src]` requires.
- On a `src` change the cleanup and the new effect run with the element
  attached, since the component is still mounted. On unmount, whether the ref
  still holds the element is a parameter.
- `ParseFetchUrl` and `Decimal.ParseInt` are reference readers. The page
  itself never parses its request URL. They are the partner of `FetchUrl` in
  a round-trip lemma showing that the URL string carries the page, size and
  sort unambiguously. The reader takes everything after `sort=` as the sort,
  exactly as the string was built; it is not a query-string decoder.

Behaviour of the code as written, which the model keeps:

- Both selector handlers pass `page: 1`, which the `page <= 1` guard
  (src/App.jsx:20) rejects, so neither changes the URL. "First" passes
  `page: 1` too and is rejected in the same way.
- "Previous" asks for `page - 1`, so it is rejected on page 2 as well as on
  page 1.
- No jump is clamped. The only bound is the "next" entry's
  `page <= links.length - 3`.

The proved consequences: no control ever changes the page size or the sort,
and once the page is above 1 no control brings it back to 1
(`Pagination.RunKeepsSizeAndSort`).

## Model

| member | source | states |
|---|---|---|
| AppQuery.CurrentQuery | src/App.jsx:15-17 | A missing page is 1, a missing size is 10, a missing or empty sort is `-published_at`; present parameters are taken as given; the sort is never empty |
| AppQuery.Merge | src/App.jsx:23-28 | Past the guards, the new query is the current one with exactly the supplied fields replaced; an accepted page is above 1 and an accepted size above 10 |
| AppQuery.UpdateQuery | src/App.jsx:19-29 | A request whose page or size is `<= 1` / `<= 10` leaves the URL unchanged; an absent field never triggers its guard; an accepted request writes all three parameters, with each supplied field taking its new value and each absent field keeping the current one |
| AppQuery.WriteParams | src/App.jsx:23-28 | `setSearchParams` leaves all three parameters present; the page and size read back as written, and so does the whole query when its sort is non-empty (see `AppQuery.ReadAfterWrite`) |
| AppQuery.NoParamsReadDefaults | src/App.jsx:15-17 | A URL without parameters reads as page 1, size 10, sort `-published_at` |
| AppQuery.ReadAfterWrite | src/App.jsx:15-28 | Writing a query with a non-empty sort to the URL and reading it back gives the same query |
| AppQuery.UpdateQueryMerges | src/App.jsx:19-28 | After an accepted update the page reads exactly the merged query (an empty new sort reads back as the default) |
| AppQuery.FetchUrl | src/App.jsx:41 | The request URL starts with the endpoint and `page[number]=`; its full contents and field order are stated by `AppQuery.FetchUrlRoundTrip` |
| AppQuery.FetchUrlRoundTrip | src/App.jsx:41 | The request URL carries the page as `page[number]`, the size as `page[size]`, both `append[]` parameters, then the sort, in that order: reading them back yields the query |
| AppQuery.FetchUrlInjective | src/App.jsx:41 | Different queries produce different request URLs |
| Pagination.LinkRequest | src/App.jsx:228-265 | A strip entry only ever asks for a page, never a size or sort; it calls `updateQuery` unless it is the last entry (of two or more) and `page > links.length - 3`; it asks for `null` only from an interior entry whose URL has no page (per-entry behaviour in `Pagination.PreviousLink`, `NextLink`, `InteriorLink`) |
| Pagination.Request | src/App.jsx:31-37 | Every control that calls `updateQuery` passes a page, and every control that passes a size or a sort passes `page: 1` (lines 32, 36, 218, 236, 250, 265, 276); only "Last" without a response and a blocked "next" skip the call (an interior entry with a `null` URL, which throws at line 263, is folded into the `null`-page request, which the guard rejects) |
| Pagination.Step | src/App.jsx:19-276 | A control leaves the URL unchanged or writes all three parameters; it never changes the page size or the sort order the page reads; a control that changes the URL lands on a page above 1 (over sequences: `Pagination.RunKeepsSizeAndSort`) |
| Pagination.SelectorsAndFirstChangeNothing | src/App.jsx:31-37 | The page-size and sort selectors and the "First" button (line 218) all ask for page 1 and so never change the URL |
| Pagination.PreviousLink | src/App.jsx:225-241 | Entry 0 asks for `page - 1` whatever its URL; it changes the URL exactly when the current page is at least 3, and then only the page drops by one; a one-entry strip acts as "previous" |
| Pagination.NextLink | src/App.jsx:243-256 | The last entry of a strip of two or more changes the URL exactly when `1 <= page <= links.length - 3`, and then only the page rises by one |
| Pagination.InteriorLink | src/App.jsx:258-270 | An interior entry asks for exactly the page its URL carries; the URL is left unchanged when that page is missing or `<= 1`, otherwise only the page of the query becomes that page |
| Pagination.LastButton | src/App.jsx:274-279 | "Last" asks for `meta.last_page`; with no response yet or a last page `<= 1` nothing changes, otherwise only the page becomes the last page |
| Pagination.RunKeepsSizeAndSort | src/App.jsx:19-29 | Over any sequence of controls the size and sort stay those the URL started with, and a page above 1 never returns to 1 |
| Pagination.FetchFollowsQuery | src/App.jsx:41-52 | After a control, the request URL differs from the previous one exactly when the query differs |
| LazyImage.Initial | src/components/LazyImage.jsx:5-6 | Initially `imageSrc` is empty and `isLoaded` false: the placeholder is rendered with `opacity-0` |
| LazyImage.RenderedSrc | src/components/LazyImage.jsx:46-48 | The rendered source is `imageSrc` when it is non-empty; it is the placeholder data URI exactly when `imageSrc` is empty or is itself the placeholder |
| LazyImage.OpacityClass | src/components/LazyImage.jsx:50 | The class is `opacity-100` iff `isLoaded`, else `opacity-0` |
| LazyImage.Load | src/components/LazyImage.jsx:17-18 | Loading sets `imageSrc` to the `src` prop and `isLoaded` to true and touches nothing else |
| LazyImage.Cleanup | src/components/LazyImage.jsx:31-35 | Cleanup stops observation when the element is still attached, leaves the state alone otherwise, and never resets `imageSrc` or `isLoaded` |
| LazyImage.RunEffect | src/components/LazyImage.jsx:8-41 | One effect run does nothing without an attached element; with observer support it starts observing and leaves `imageSrc` and `isLoaded` alone; without support it sets `imageSrc` to `src` and `isLoaded` to true at once; it never clears `imageSrc` or `isLoaded` |
| LazyImage.Mount | src/components/LazyImage.jsx:3-41 | The three mount cases: without an attached element nothing happens; with observer support the element is observed and the placeholder stays with `opacity-0`; without support `imageSrc` is `src` and the image is loaded at once |
| LazyImage.Step | src/components/LazyImage.jsx:13-41 | An unmounted component never changes and unmounting leaves it unmounted; a re-render with the same `src` changes nothing, since the effect depends on `src` only; a re-render with a different `src` and no observer support sets `imageSrc` to the new `src` and `isLoaded` to true at once; `isLoaded` never goes back to false; `imageSrc` only ever becomes the current `src`, together with `isLoaded` (entries: `LazyImage.EntriesLoadOnce`; cleanup: `LazyImage.CleanupKeepsShownSource`) |
| LazyImage.IntersectingEntryLoads | src/components/LazyImage.jsx:13-20 | An intersecting entry while observed sets `imageSrc := src`, `isLoaded := true`, stops observation and changes nothing else |
| LazyImage.IgnoredEntries | src/components/LazyImage.jsx:15-19 | A non-intersecting entry, or any entry after observation stopped, changes no state |
| LazyImage.IgnoredEntriesAfterLoad | src/components/LazyImage.jsx:19 | Once observation has stopped, no sequence of entries changes the state |
| LazyImage.EntriesLoadOnce | src/components/LazyImage.jsx:12-28 | Within one effect run, any sequence of entries loads at most once: the result is the loaded state if the element was observed and some entry intersected, the unchanged state otherwise |
| LazyImage.CleanupKeepsShownSource | src/components/LazyImage.jsx:30-41 | Unmount, or a re-render with observer support, never resets `imageSrc` or `isLoaded`; after such a re-render with a different `src` the old source stays rendered while the new `src` is observed; a re-render with the same `src` changes nothing (a re-render without support loads the new `src` at once, stated by `LazyImage.Step`) |
| LazyImage.EmptySourceShowsPlaceholder | src/components/LazyImage.jsx:15-50 | An intersecting entry with an empty `src` marks the image loaded (`opacity-100`) yet still renders the placeholder |
| LazyImage.NotLoadedShowsPlaceholder | src/components/LazyImage.jsx:5-50 | After any mount and any later events, the placeholder is rendered whenever the opacity class is `opacity-0` |

## Left out

- The HTTP request (axios), storing the response, and logging a failed request (src/App.jsx:39-52). These are network I/O and asynchronous scheduling. So is the last-writer-wins race between requests. The request URL is modelled; links and `last_page` enter as parameters of the controls.
- The scroll-direction header and its window listener (src/App.jsx:54-64, 68-72). This is UI event plumbing.
- JSX markup, link labels, the `active` highlighting and every CSS class except the opacity toggle.
- `src/utils/util.js` (`changeHostname`, `decodeHTML`, `formatDate`). These are thin wrappers over the browser's URL parser, DOMParser and timezone-dependent Date.
- JavaScript Numbers are doubles; the model uses unbounded integers. Above 2^53 `page + 1` (src/App.jsx:250) can equal `page`, and from 10^21 on `${n}` is written with an exponent. The decimal text of `Decimal.IntToString` matches JavaScript only below 2^53 in magnitude.
- The sort is put into the request URL without percent-encoding (src/App.jsx:17, 41). A sort holding `&` or `#` reaches the server as a different query. `AppQuery.ParseFetchUrl` reads back this exact string, not the query a server would decode, so `AppQuery.FetchUrlInjective` is about the string.
- JavaScript string and number coercion. `parseInt` of non-numeric or partly numeric text (NaN, `"12abc"`) is not modelled; parameters are integers or missing. A `last_page` missing from a response is not modelled either.
- URL parameters other than `page`, `size` and `sort`. `setSearchParams` drops them on an accepted update; the model does not carry them.
- The difference between an `undefined` and an empty `src` prop. Both are the empty string here, so a change from one to the other, which re-runs the effect in React, is a re-render with the same `src` in the model.
- IntersectionObserver geometry (the 50px root margin). An entry is just intersecting or not.
- React's render and effect scheduling. Events are applied one at a time in the order given.

=== FILE: decimal.dfy ===
/**
  Decimal text for integers: how a JavaScript template literal renders an
  integer-valued Number (`${n}`) whose magnitude is below 2^53, where
  Numbers are exact and are written without an exponent, and a reference
  reader for that text.
 */
module Decimal {
  import opened Wrappers

  predicate IsDigit(c: char) {
    '0' <= c <= '9'
  }

  predicate AllDigits(s: string) {
    forall i :: 0 <= i < |s| ==> IsDigit(s[i])
  }

  function DigitChar(d: int): (c: char)
    requires 0 <= d < 10
    ensures IsDigit(c)
    ensures c as int - '0' as int == d
  {
    "0123456789"[d]
  }

  function DigitValue(c: char): (d: int)
    requires IsDigit(c)
    ensures 0 <= d < 10
  {
    c as int - '0' as int
  }

  /** Decimal digits of `n`, most significant first, without leading zeros. */
  function NatToString(n: nat): (s: string)
    ensures |s| > 0
    ensures AllDigits(s)
    ensures |s| > 1 ==> s[0] != '0'
    decreases n
  {
    if n < 10 then [DigitChar(n)]
    else NatToString(n / 10) + [DigitChar(n % 10)]
  }

  /** `${n}` for an integer-valued Number: a minus sign before the digits of |n| when negative. */
  function IntToString(n: int): (s: string)
    ensures |s| > 0
    ensures n >= 0 <==> AllDigits(s)
    ensures n < 0 ==> s[0] == '-' && |s| > 1 && AllDigits(s[1..])
  {
    if n < 0 then
      var s := "-" + NatToString(-n);
      assert !IsDigit(s[0]);
      s
    else NatToString(n)
  }

  /** The number a string of digits denotes in base ten. */
  function DigitsValue(s: string): nat
    requires AllDigits(s)
    decreases |s|
  {
    if s == [] then 0 else DigitsValue(s[..|s| - 1]) * 10 + DigitValue(s[|s| - 1])
  }

  /** Reads an optionally negative decimal integer; None for any other text. */
  function ParseInt(s: string): (r: Option<int>)
    ensures r.Some? ==> |s| > 0
    ensures AllDigits(s) && |s| > 0 ==> r.Some? && r.value >= 0
  {
    if |s| > 1 && s[0] == '-' && AllDigits(s[1..]) then
      var magnitude: int := DigitsValue(s[1..]);
      Some(-magnitude)
    else if |s| > 0 && AllDigits(s) then Some(DigitsValue(s))
    else None
  }

  /** Reading back the digits of a natural number yields that number. */
  lemma {:induction false} NatToStringRoundTrip(n: nat)
    ensures DigitsValue(NatToString(n)) == n
    decreases n
  {
    if n >= 10 {
      var s := NatToString(n);
      var front := NatToString(n / 10);
      assert s == front + [DigitChar(n % 10)];
      assert s[..|s| - 1] == front;
      NatToStringRoundTrip(n / 10);
      assert DigitsValue(s) == (n / 10) * 10 + n % 10;
    }
  }

  /** A minus sign followed by digits is read as the negated digits. */
  lemma ParseNegative(digits: string)
    requires |digits| > 0 && AllDigits(digits)
    ensures ParseInt("-" + digits) == Some(-(DigitsValue(digits) as int))
  {
  }

  /** A string of digits is read as the number it denotes. */
  lemma ParseDigits(digits: string)
    requires |digits| > 0 && AllDigits(digits)
    ensures ParseInt(digits) == Some(DigitsValue(digits))
  {
  }

  /** A negative integer is read back from its rendering. */
  lemma NegativeRoundTrip(n: int)
    requires n < 0
    ensures ParseInt(IntToString(n)) == Some(n)
  {
    var magnitude: nat := -n;
    var digits := NatToString(magnitude);
    NatToStringRoundTrip(magnitude);
    ParseNegative(digits);
    assert IntToString(n) == "-" + digits;
  }

  /** A non-negative integer is read back from its rendering. */
  lemma NonNegativeRoundTrip(n: int)
    requires n >= 0
    ensures ParseInt(IntToString(n)) == Some(n)
  {
    var digits := NatToString(n);
    NatToStringRoundTrip(n);
    ParseDigits(digits);
    assert IntToString(n) == digits;
  }

  /** Every integer is read back from its rendering. */
  lemma IntToStringRoundTrip(n: int)
    ensures ParseInt(IntToString(n)) == Some(n)
  {
    if n < 0 {
      NegativeRoundTrip(n);
    } else {
      NonNegativeRoundTrip(n);
    }
  }

  /** The rendering of an integer never contains `c` when `c` is neither a digit nor a minus sign. */
  lemma IntToStringAvoids(n: int, c: char)
    requires !IsDigit(c) && c != '-'
    ensures c !in IntToString(n)
  {
  }
}

=== FILE: lazy_image.dfy ===
/**
  The `LazyImage` component (src/components/LazyImage.jsx): an image whose
  real source is only put in place once the element comes near the
  viewport. The browser's IntersectionObserver is abstracted to whether an
  observer is watching the element and to intersection entries that either
  intersect or not.
 */
module LazyImage {

  /** The 1x1 transparent GIF rendered while no source has been set. */
  const Placeholder := "data:image/gif;base64,R0lGODlhAQABAAD/ACwAAAAAAQABAAACADs="

  /**
    The component's state: its `src` prop (a falsy prop is the empty
    string), the `imageSrc` and `isLoaded` state variables, whether an
    observer is watching the element, and whether the component is mounted.
   */
  datatype Image = Image(src: string, imageSrc: string, isLoaded: bool, observing: bool, mounted: bool)

  /** What happens to a mounted component after its first effect run. */
  datatype ImageEvent =
      /** The observer reports an entry for the element. */
    | Entry(isIntersecting: bool)
      /**
        The parent renders the component again with `src` prop `newSrc`. The
        effect depends on `src` only, so it is cleaned up and run again only
        when `newSrc` differs from the current `src`.
       */
    | Rerendered(newSrc: string, supported: bool)
      /** The component is removed; `hasRef` says whether the ref still holds the element when cleanup runs. */
    | Unmounted(hasRef: bool)

  /** The rendered `src` attribute: `imageSrc` when it is non-empty, the placeholder otherwise. */
  function RenderedSrc(s: Image): (r: string)
    ensures r == Placeholder <==> s.imageSrc == "" || s.imageSrc == Placeholder
    ensures s.imageSrc != "" ==> r == s.imageSrc
  {
    if s.imageSrc != "" then s.imageSrc else Placeholder
  }

  /** The opacity class of the rendered element. */
  function OpacityClass(s: Image): (r: string)
    ensures r == "opacity-100" <==> s.isLoaded
    ensures r == "opacity-0" <==> !s.isLoaded
  {
    if s.isLoaded then "opacity-100" else "opacity-0"
  }

  /** The state right after the first render, before any effect has run. */
  function Initial(src: string): (s: Image)
    ensures s.imageSrc == "" && !s.isLoaded
    ensures RenderedSrc(s) == Placeholder && OpacityClass(s) == "opacity-0"
    ensures !s.observing && s.mounted && s.src == src
  {
    Image(src, "", false, false, true)
  }

  /** The state in which the real source is shown: `imageSrc := src`, `isLoaded := true`. */
  function Load(s: Image): (r: Image)
    ensures r.imageSrc == s.src && r.isLoaded
    ensures r.src == s.src && r.observing == s.observing && r.mounted == s.mounted
  {
    s.(imageSrc := s.src, isLoaded := true)
  }

  /**
    One run of the effect for the current `src`: nothing without an attached
    element; with observer support, start observing; without it, load at once.
   */
  function RunEffect(s: Image, supported: bool, hasRef: bool): (r: Image)
    ensures !hasRef ==> r == s
    ensures r.src == s.src && r.mounted == s.mounted
    ensures s.isLoaded ==> r.isLoaded
    ensures r.imageSrc == s.imageSrc || (r.imageSrc == s.src && r.isLoaded)
    ensures r.observing <==> s.observing || (hasRef && supported)
    ensures hasRef && !supported ==> r.imageSrc == s.src && r.isLoaded
    ensures supported ==> r.imageSrc == s.imageSrc && r.isLoaded == s.isLoaded
  {
    if !hasRef then s
    else if supported then s.(observing := true)
    else Load(s)
  }

  /** The cleanup returned by an effect run that started observing: stop observing if the element is still attached. */
  function Cleanup(s: Image, hasRef: bool): (r: Image)
    ensures r.imageSrc == s.imageSrc && r.isLoaded == s.isLoaded && r.src == s.src
    ensures hasRef ==> !r.observing
    ensures !hasRef ==> r == s
  {
    if hasRef then s.(observing := false) else s
  }

  /** The component as first mounted with `src`: initial state followed by the first effect run. */
  function Mount(src: string, supported: bool, hasRef: bool): (s: Image)
    ensures s.src == src && s.mounted
    ensures s.observing <==> hasRef && supported
    ensures s.isLoaded <==> hasRef && !supported
    ensures s.imageSrc == (if hasRef && !supported then src else "")
    ensures !(hasRef && !supported) ==> RenderedSrc(s) == Placeholder && OpacityClass(s) == "opacity-0"
  {
    RunEffect(Initial(src), supported, hasRef)
  }

  /** The state after an event. An unmounted component no longer changes. */
  function Step(s: Image, e: ImageEvent): (r: Image)
    ensures !s.mounted ==> r == s
    ensures e.Entry? ==> r.src == s.src
    ensures e.Rerendered? && e.newSrc == s.src ==> r == s
    ensures s.mounted && e.Unmounted? ==> !r.mounted
    ensures s.mounted && e.Rerendered? && e.newSrc != s.src && !e.supported ==>
      r.src == e.newSrc && r.imageSrc == e.newSrc && r.isLoaded && !r.observing
    ensures s.isLoaded ==> r.isLoaded
    ensures r.imageSrc == s.imageSrc || (r.imageSrc == r.src && r.isLoaded)
  {
    if !s.mounted then s
    else
      match e
      case Entry(isIntersecting) =>
        if s.observing && isIntersecting then Load(s).(observing := false) else s
      case Rerendered(newSrc, supported) =>
        if newSrc == s.src then s
        else RunEffect(Cleanup(s, true).(src := newSrc), supported, true)
      case Unmounted(hasRef) =>
        Cleanup(s, hasRef).(mounted := false)
  }

  /** The state after a sequence of events. */
  function Run(s: Image, es: seq<ImageEvent>): Image
    decreases |es|
  {
    if es == [] then s else Run(Step(s, es[0]), es[1..])
  }

  /** Entries reported one after the other; `intersecting[i]` is whether the i-th entry intersects. */
  function Entries(intersecting: seq<bool>): (es: seq<ImageEvent>)
    ensures |es| == |intersecting|
    ensures forall i :: 0 <= i < |es| ==> es[i] == Entry(intersecting[i])
  {
    seq(|intersecting|, i requires 0 <= i < |intersecting| => Entry(intersecting[i]))
  }

  /** The number of events in `es` that, applied from `s` in order, change `imageSrc` or `isLoaded`. */
  function LoadCount(s: Image, es: seq<ImageEvent>): nat
    decreases |es|
  {
    if es == [] then 0
    else
      var next := Step(s, es[0]);
      (if next.imageSrc != s.imageSrc || next.isLoaded != s.isLoaded then 1 else 0) + LoadCount(next, es[1..])
  }

  /**
    An intersecting entry while observed shows the real source, marks the
    image loaded and stops observation; nothing else changes.
   */
  lemma IntersectingEntryLoads(s: Image)
    requires s.mounted && s.observing
    ensures Step(s, Entry(true)) == s.(imageSrc := s.src, isLoaded := true, observing := false)
    ensures RenderedSrc(Step(s, Entry(true))) == (if s.src == "" then Placeholder else s.src)
  {
  }

  /** A non-intersecting entry, or any entry once observation has stopped, changes nothing. */
  lemma IgnoredEntries(s: Image, isIntersecting: bool)
    requires !isIntersecting || !s.observing
    ensures Step(s, Entry(isIntersecting)) == s
  {
  }

  /**
    Within one effect run, a sequence of entries loads the image at most
    once: the result is the loaded state when the element was observed and
    some entry intersected, and the unchanged state otherwise.
   */
  lemma {:induction false} EntriesLoadOnce(s: Image, intersecting: seq<bool>)
    ensures Run(s, Entries(intersecting)) ==
      if s.mounted && s.observing && true in intersecting
      then s.(imageSrc := s.src, isLoaded := true, observing := false)
      else s
    ensures LoadCount(s, Entries(intersecting)) <= 1
    decreases |intersecting|
  {
    if intersecting != [] {
      var es := Entries(intersecting);
      var next := Step(s, es[0]);
      assert es[1..] == Entries(intersecting[1..]);
      EntriesLoadOnce(next, intersecting[1..]);
      if s.mounted && s.observing && intersecting[0] {
        IgnoredEntriesAfterLoad(next, intersecting[1..]);
      }
      assert true in intersecting <==> intersecting[0] || true in intersecting[1..];
    }
  }

  /** Once observation has stopped, no sequence of entries changes the state. */
  lemma {:induction false} IgnoredEntriesAfterLoad(s: Image, intersecting: seq<bool>)
    requires !s.observing
    ensures Run(s, Entries(intersecting)) == s
    ensures LoadCount(s, Entries(intersecting)) == 0
    decreases |intersecting|
  {
    if intersecting != [] {
      assert Entries(intersecting)[1..] == Entries(intersecting[1..]);
      IgnoredEntriesAfterLoad(s, intersecting[1..]);
    }
  }

  /**
    Cleanup on a `src` change or on unmount never resets `imageSrc` or
    `isLoaded`: with observer support, the previously shown source stays
    rendered under the new `src` until the next intersecting entry. A
    re-render with the same `src` runs neither cleanup nor effect.
   */
  lemma CleanupKeepsShownSource(s: Image, e: ImageEvent)
    requires s.mounted
    requires e.Unmounted? || (e.Rerendered? && e.supported)
    ensures Step(s, e).imageSrc == s.imageSrc && Step(s, e).isLoaded == s.isLoaded
    ensures RenderedSrc(Step(s, e)) == RenderedSrc(s)
    ensures e.Rerendered? && e.newSrc != s.src ==> Step(s, e).observing && Step(s, e).src == e.newSrc
    ensures e.Rerendered? && e.newSrc == s.src ==> Step(s, e) == s
    ensures e.Unmounted? && e.hasRef ==> !Step(s, e).observing
  {
  }

  /**
    The placeholder is rendered exactly when `imageSrc` is empty (for a
    real source other than the placeholder itself), even after `isLoaded`
    became true with an empty `src`.
   */
  lemma EmptySourceShowsPlaceholder(s: Image)
    requires s.mounted && s.observing && s.src == ""
    ensures Step(s, Entry(true)).isLoaded
    ensures RenderedSrc(Step(s, Entry(true))) == Placeholder
    ensures OpacityClass(Step(s, Entry(true))) == "opacity-100"
  {
  }

  /** The state never shows a source it has not marked loaded. */
  predicate Consistent(s: Image) {
    s.imageSrc != "" ==> s.isLoaded
  }

  /** Every event keeps the state consistent. */
  lemma StepKeepsConsistent(s: Image, e: ImageEvent)
    requires Consistent(s)
    ensures Consistent(Step(s, e))
  {
  }

  /**
    From any mount, whatever happens afterwards, a real source is rendered
    only once the image is marked loaded: while the opacity class is
    `opacity-0` the placeholder is shown.
   */
  lemma {:induction false} NotLoadedShowsPlaceholder(src: string, supported: bool, hasRef: bool, es: seq<ImageEvent>)
    ensures var s := Run(Mount(src, supported, hasRef), es);
      OpacityClass(s) == "opacity-0" ==> RenderedSrc(s) == Placeholder
  {
    RunKeepsConsistent(Mount(src, supported, hasRef), es);
  }

  lemma {:induction false} RunKeepsConsistent(s: Image, es: seq<ImageEvent>)
    requires Consistent(s)
    ensures Consistent(Run(s, es))
    decreases |es|
  {
    if es != [] {
      StepKeepsConsistent(s, es[0]);
      RunKeepsConsistent(Step(s, es[0]), es[1..]);
    }
  }
}

=== FILE: pagination.dfy ===
/**
  The controls of the Ideas listing page and the query each one requests:
  the page-size and sort selectors, the "First" and "Last" buttons and the
  strip of pagination links built from the response's `meta.links`
  (src/App.jsx lines 31-37 and 214-280). Every control goes through
  `updateQuery`, so its guards decide whether the URL changes.
 */
module Pagination {
  import opened Wrappers
  import opened AppQuery

  /**
    One entry of `meta.links`: the page number carried by its URL in the
    `page[number]` parameter, if any.
   */
  datatype Link = Link(page: Option<int>)

  /** A user action on the listing page. */
  datatype Control =
    | PageSizeSelected(size: int)
    | SortSelected(sort: string)
    | FirstClicked
      /** A click on entry `index` of the pagination strip rendered from `links`. */
    | LinkClicked(links: seq<Link>, index: int)
      /** A click on "Last"; `lastPage` is None while no response has been received. */
    | LastClicked(lastPage: Option<int>)

  /** Only entries that exist in the strip can be clicked. */
  predicate Rendered(c: Control) {
    c.LinkClicked? ==> 0 <= c.index < |c.links|
  }

  /**
    What entry `index` of the strip asks `updateQuery` for, given the current
    page: entry 0 is "previous", the last entry is "next", which asks for
    the following page only while `page <= |links| - 3`, and any other entry
    asks for the page its URL carries (`null` when the URL has none).
   */
  function LinkRequest(page: int, links: seq<Link>, index: int): (r: Option<Overrides>)
    requires 0 <= index < |links|
    ensures r.Some? ==> !r.value.page.Undefined? && r.value.size.Undefined? && r.value.sort.None?
    ensures r.None? <==> 0 < index == |links| - 1 && page > |links| - 3
    ensures r.Some? && r.value.page.Null? ==> 0 < index < |links| - 1 && links[index].page.None?
  {
    if index == 0 then
      Some(Overrides(Given(page - 1), Undefined, None))
    else if index == |links| - 1 then
      if page <= |links| - 3 then Some(Overrides(Given(page + 1), Undefined, None)) else None
    else
      match links[index].page
      case Some(n) => Some(Overrides(Given(n), Undefined, None))
      case None => Some(Overrides(Null, Undefined, None))
  }

  /**
    The argument a control passes to `updateQuery`, or None when its handler
    returns (or throws) before calling it.
   */
  function Request(q: Query, c: Control): (r: Option<Overrides>)
    requires Rendered(c)
    ensures r.Some? ==> !r.value.page.Undefined?
    ensures r.Some? && (!r.value.size.Undefined? || r.value.sort.Some?) ==> r.value.page == Given(1)
    ensures r.None? <==>
      || (c.LastClicked? && c.lastPage.None?)
      || (c.LinkClicked? && 0 < c.index == |c.links| - 1 && q.page > |c.links| - 3)
  {
    match c
    case PageSizeSelected(size) => Some(Overrides(Given(1), Given(size), None))
    case SortSelected(sort) => Some(Overrides(Given(1), Undefined, Some(sort)))
    case FirstClicked => Some(Overrides(Given(1), Undefined, None))
    case LinkClicked(links, index) => LinkRequest(q.page, links, index)
    case LastClicked(lastPage) =>
      match lastPage
      case Some(n) => Some(Overrides(Given(n), Undefined, None))
      case None => None
  }

  /** The URL parameters after a control is used. */
  function Step(p: SearchParams, c: Control): (r: SearchParams)
    requires Rendered(c)
    ensures r == p || (r.page.Some? && r.size.Some?)
    ensures CurrentQuery(r).size == CurrentQuery(p).size
    ensures CurrentQuery(r).sort == CurrentQuery(p).sort
    ensures r != p ==> CurrentQuery(r).page > 1
  {
    match Request(CurrentQuery(p), c)
    case None => p
    case Some(o) => UpdateQuery(p, o)
  }

  /** A sequence of controls used one after the other. */
  function Run(p: SearchParams, cs: seq<Control>): SearchParams
    requires forall i :: 0 <= i < |cs| ==> Rendered(cs[i])
    decreases |cs|
  {
    if cs == [] then p else Run(Step(p, cs[0]), cs[1..])
  }

  /**
    Choosing a page size or a sort order, or clicking "First", always asks
    for page 1, which the `page <= 1` guard rejects: none of them changes
    the URL.
   */
  lemma SelectorsAndFirstChangeNothing(p: SearchParams, c: Control)
    requires c.PageSizeSelected? || c.SortSelected? || c.FirstClicked?
    ensures Step(p, c) == p
  {
  }

  /**
    The "previous" entry asks for the page before the current one whatever
    its URL says; the guard lets that through only from page 3 on.
   */
  lemma PreviousLink(p: SearchParams, links: seq<Link>)
    requires |links| > 0
    ensures Step(p, LinkClicked(links, 0)) != p <==> CurrentQuery(p).page >= 3
    ensures CurrentQuery(p).page >= 3 ==>
      CurrentQuery(Step(p, LinkClicked(links, 0))) == CurrentQuery(p).(page := CurrentQuery(p).page - 1)
  {
  }

  /**
    The "next" entry (the last one, when there are at least two) asks for
    the following page only while the current page is at most `|links| - 3`,
    and the guard rejects it when the current page is below 1.
   */
  lemma NextLink(p: SearchParams, links: seq<Link>)
    requires |links| >= 2
    ensures Step(p, LinkClicked(links, |links| - 1)) != p <==> 1 <= CurrentQuery(p).page <= |links| - 3
    ensures 1 <= CurrentQuery(p).page <= |links| - 3 ==>
      CurrentQuery(Step(p, LinkClicked(links, |links| - 1))) == CurrentQuery(p).(page := CurrentQuery(p).page + 1)
  {
  }

  /**
    An interior entry asks for exactly the page its URL carries; the URL
    changes only when that page is above 1, and then only the page of the
    query changes.
   */
  lemma InteriorLink(p: SearchParams, links: seq<Link>, index: int)
    requires 0 < index < |links| - 1
    ensures !(links[index].page.Some? && links[index].page.value > 1) ==> Step(p, LinkClicked(links, index)) == p
    ensures links[index].page.Some? && links[index].page.value > 1 ==>
      CurrentQuery(Step(p, LinkClicked(links, index))) == CurrentQuery(p).(page := links[index].page.value)
  {
  }

  /**
    "Last" asks for `meta.last_page`; before any response it throws and
    nothing changes, and a last page of 1 or less is rejected.
   */
  lemma LastButton(p: SearchParams, lastPage: Option<int>)
    ensures !(lastPage.Some? && lastPage.value > 1) ==> Step(p, LastClicked(lastPage)) == p
    ensures lastPage.Some? && lastPage.value > 1 ==>
      CurrentQuery(Step(p, LastClicked(lastPage))) == CurrentQuery(p).(page := lastPage.value)
  {
  }

  /**
    Over any sequence of controls the page size and sort order stay those
    the URL started with, and once the page is above 1 it never returns
    to 1.
   */
  lemma {:induction false} RunKeepsSizeAndSort(p: SearchParams, cs: seq<Control>)
    requires forall i :: 0 <= i < |cs| ==> Rendered(cs[i])
    ensures CurrentQuery(Run(p, cs)).size == CurrentQuery(p).size
    ensures CurrentQuery(Run(p, cs)).sort == CurrentQuery(p).sort
    ensures CurrentQuery(p).page > 1 ==> CurrentQuery(Run(p, cs)).page > 1
    decreases |cs|
  {
    if cs != [] {
      RunKeepsSizeAndSort(Step(p, cs[0]), cs[1..]);
    }
  }

  /** The request URL changes exactly when the query the page reads changes. */
  lemma FetchFollowsQuery(p: SearchParams, c: Control)
    requires Rendered(c)
    ensures FetchUrl(CurrentQuery(Step(p, c))) == FetchUrl(CurrentQuery(p)) <==> CurrentQuery(Step(p, c)) == CurrentQuery(p)
  {
    if FetchUrl(CurrentQuery(Step(p, c))) == FetchUrl(CurrentQuery(p)) {
      FetchUrlInjective(CurrentQuery(Step(p, c)), CurrentQuery(p));
    }
  }
}

=== FILE: query.dfy ===
/**
  The query of the Ideas listing page: the URL search parameters it is read
  from, the defaults that fill missing parameters, the guarded merge that
  `updateQuery` performs, and the request URL built from the query
  (src/App.jsx lines 15-41).
 */
module AppQuery {
  import opened Wrappers
  import Decimal

  const DefaultPage := 1
  const DefaultSize := 10
  const DefaultSort := "-published_at"

  /**
    The `page`, `size` and `sort` parameters of the page's URL. `None` (and,
    for `sort`, the empty string) stands for a parameter that is missing or
    empty, which the page replaces by its default.
   */
  datatype SearchParams = SearchParams(page: Option<int>, size: Option<int>, sort: string)

  /** The query the page works with once defaults are filled in. */
  datatype Query = Query(page: int, size: int, sort: string)

  /** The parameters the page starts from when its URL carries none. */
  const NoParams := SearchParams(None, None, "")

  /** A URL without parameters reads as page 1, size 10, sorted by `-published_at`. */
  lemma NoParamsReadDefaults()
    ensures CurrentQuery(NoParams) == Query(1, 10, "-published_at")
  {
  }

  /** The query the page reads from its URL, missing parameters replaced by their defaults. */
  function CurrentQuery(p: SearchParams): (q: Query)
    ensures p.page.None? ==> q.page == DefaultPage
    ensures p.size.None? ==> q.size == DefaultSize
    ensures p.sort == "" ==> q.sort == DefaultSort
    ensures p.page.Some? ==> q.page == p.page.value
    ensures p.size.Some? ==> q.size == p.size.value
    ensures p.sort != "" ==> q.sort == p.sort
    ensures q.sort != ""
  {
    Query(p.page.GetOr(DefaultPage), p.size.GetOr(DefaultSize), if p.sort == "" then DefaultSort else p.sort)
  }

  /** The parameters `setSearchParams` leaves in the URL for a query: all three, present. */
  function WriteParams(q: Query): (p: SearchParams)
    ensures p.page.Some? && p.size.Some?
    ensures CurrentQuery(p).page == q.page && CurrentQuery(p).size == q.size
    ensures q.sort != "" ==> CurrentQuery(p) == q
  {
    SearchParams(Some(q.page), Some(q.size), q.sort)
  }

  /**
    A JavaScript value given for an optional field of the object passed to
    `updateQuery`: the key is absent (`undefined`), it holds `null`, or it
    holds a value.
   */
  datatype Arg<T> = Undefined | Null | Given(value: T)

  /**
    `a <= bound` under JavaScript's relational comparison: `undefined`
    converts to NaN, so the comparison is false; `null` converts to 0.
   */
  predicate AtMost(a: Arg<int>, bound: int) {
    match a
    case Undefined => false
    case Null => 0 <= bound
    case Given(v) => v <= bound
  }

  /** The object passed to `updateQuery`: the fields to override. */
  datatype Overrides = Overrides(page: Arg<int>, size: Arg<int>, sort: Option<string>)

  /** The two guards at the head of `updateQuery`: either one returns without touching the URL. */
  predicate Rejected(o: Overrides) {
    AtMost(o.page, 1) || AtMost(o.size, 10)
  }

  /**
    `{page, size, sort, ...params}`: the current query with exactly the
    supplied fields replaced. Past the guards neither override can be `null`.
   */
  function Merge(q: Query, o: Overrides): (r: Query)
    requires !Rejected(o)
    ensures o.page.Undefined? ==> r.page == q.page
    ensures o.page.Given? ==> r.page == o.page.value && r.page > 1
    ensures o.size.Undefined? ==> r.size == q.size
    ensures o.size.Given? ==> r.size == o.size.value && r.size > 10
    ensures o.sort.None? ==> r.sort == q.sort
    ensures o.sort.Some? ==> r.sort == o.sort.value
  {
    Query(
      if o.page.Given? then o.page.value else q.page,
      if o.size.Given? then o.size.value else q.size,
      o.sort.GetOr(q.sort))
  }

  /**
    `updateQuery(params)`: the URL parameters afterwards. A rejected request
    leaves them as they were; otherwise the URL is replaced by the merged
    query, so all three parameters are present afterwards.
   */
  function UpdateQuery(p: SearchParams, o: Overrides): (r: SearchParams)
    ensures Rejected(o) ==> r == p
    ensures !Rejected(o) ==> r.page.Some? && r.size.Some?
    ensures !Rejected(o) && o.page.Undefined? ==> CurrentQuery(r).page == CurrentQuery(p).page
    ensures !Rejected(o) && o.page.Given? ==> CurrentQuery(r).page == o.page.value
    ensures !Rejected(o) && o.size.Undefined? ==> CurrentQuery(r).size == CurrentQuery(p).size
    ensures !Rejected(o) && o.size.Given? ==> CurrentQuery(r).size == o.size.value
    ensures !Rejected(o) && o.sort.None? ==> CurrentQuery(r).sort == CurrentQuery(p).sort
    ensures !Rejected(o) && o.sort.Some? ==>
      CurrentQuery(r).sort == (if o.sort.value == "" then DefaultSort else o.sort.value)
  {
    if Rejected(o) then p else WriteParams(Merge(CurrentQuery(p), o))
  }

  /** Writing a query with a non-empty sort to the URL and reading it back yields that query. */
  lemma ReadAfterWrite(q: Query)
    requires q.sort != ""
    ensures CurrentQuery(WriteParams(q)) == q
  {
  }

  /**
    The query the page reads after an accepted `updateQuery` is the merge of
    the current query with the overrides, unless the new sort is the empty
    string, which reads back as the default sort.
   */
  lemma UpdateQueryMerges(p: SearchParams, o: Overrides)
    requires !Rejected(o)
    ensures o.sort != Some("") ==> CurrentQuery(UpdateQuery(p, o)) == Merge(CurrentQuery(p), o)
    ensures o.sort == Some("") ==> CurrentQuery(UpdateQuery(p, o)) == Merge(CurrentQuery(p), o).(sort := DefaultSort)
  {
    if o.sort != Some("") {
      ReadAfterWrite(Merge(CurrentQuery(p), o));
    }
  }

  // ----- The request URL -----

  const FetchPrefix := "https://suitmedia-backend.suitdev.com/api/ideas?page[number]="
  const SizeField := "&" + "page[size]="
  const AppendsAndSort := "&" + "append[]=small_image&append[]=medium_image&sort="

  /** The URL of the list request for a query: page number, page size, both image appends, then the sort. */
  function FetchUrl(q: Query): (u: string)
    ensures |FetchPrefix| < |u| && u[..|FetchPrefix|] == FetchPrefix
  {
    FetchPrefix + Decimal.IntToString(q.page) + SizeField + Decimal.IntToString(q.size) + AppendsAndSort + q.sort
  }

  /** The longest prefix of `s` that does not contain `c`. */
  function TakeUntil(s: string, c: char): (t: string)
    ensures |t| <= |s| && t == s[..|t|]
    ensures c !in t
    ensures |t| < |s| ==> s[|t|] == c
  {
    if s == [] || s[0] == c then [] else [s[0]] + TakeUntil(s[1..], c)
  }

  /** The rest of `s` after `prefix`, or None when `s` does not start with `prefix`. */
  function DropPrefix(s: string, prefix: string): (r: Option<string>)
    ensures r.Some? <==> |prefix| <= |s| && s[..|prefix|] == prefix
    ensures r.Some? ==> s == prefix + r.value
  {
    if |prefix| <= |s| && s[..|prefix|] == prefix then Some(s[|prefix|..]) else None
  }

  /** An integer written up to the next `&`, and the text from that `&` on. */
  function ReadInt(s: string): (r: Option<(int, string)>)
    ensures r.Some? ==> |r.value.1| < |s|
  {
    var text := TakeUntil(s, '&');
    match Decimal.ParseInt(text)
    case Some(n) => Some((n, s[|text|..]))
    case None => None
  }

  /**
    A reference reader of exactly the string `FetchUrl` builds: the page
    number, the page size, and everything after `sort=` as the sort; None
    when the text does not have that shape.
   */
  function ParseFetchUrl(u: string): (r: Option<Query>)
    ensures r.Some? ==> DropPrefix(u, FetchPrefix).Some?
  {
    match DropPrefix(u, FetchPrefix)
    case None => None
    case Some(afterPrefix) =>
      match ReadInt(afterPrefix)
      case None => None
      case Some((page, afterPage)) =>
        match DropPrefix(afterPage, SizeField)
        case None => None
        case Some(afterSizeField) =>
          match ReadInt(afterSizeField)
          case None => None
          case Some((size, afterSize)) =>
            match DropPrefix(afterSize, AppendsAndSort)
            case None => None
            case Some(sort) => Some(Query(page, size, sort))
  }

  lemma DropPrefixOfConcat(prefix: string, rest: string)
    ensures DropPrefix(prefix + rest, prefix) == Some(rest)
  {
    assert (prefix + rest)[..|prefix|] == prefix;
    assert (prefix + rest)[|prefix|..] == rest;
  }

  /** `TakeUntil` stops exactly at the first `c` when the text before it is free of `c`. */
  lemma {:induction false} TakeUntilStops(a: string, b: string, c: char)
    requires c !in a
    requires |b| > 0 && b[0] == c
    ensures TakeUntil(a + b, c) == a
    decreases |a|
  {
    if a != [] {
      assert (a + b)[1..] == a[1..] + b;
      TakeUntilStops(a[1..], b, c);
    }
  }

  /** An integer's rendering followed by an `&` is read back as that integer. */
  lemma ReadIntOfRendering(n: int, rest: string)
    requires |rest| > 0 && rest[0] == '&'
    ensures ReadInt(Decimal.IntToString(n) + rest) == Some((n, rest))
  {
    var text := Decimal.IntToString(n);
    Decimal.IntToStringAvoids(n, '&');
    TakeUntilStops(text, rest, '&');
    Decimal.IntToStringRoundTrip(n);
    assert (text + rest)[|text|..] == rest;
  }

  lemma Regroup(a: string, b: string, c: string, d: string, e: string, f: string)
    ensures a + b + c + d + e + f == a + (b + (c + (d + (e + f))))
  {
  }

  /** The page, size and sort are read back unchanged from the request URL of a query. */
  lemma FetchUrlRoundTrip(q: Query)
    ensures ParseFetchUrl(FetchUrl(q)) == Some(q)
  {
    var tail := AppendsAndSort + q.sort;
    var afterSizeField := Decimal.IntToString(q.size) + tail;
    var afterPage := SizeField + afterSizeField;
    var afterPrefix := Decimal.IntToString(q.page) + afterPage;
    Regroup(FetchPrefix, Decimal.IntToString(q.page), SizeField, Decimal.IntToString(q.size), AppendsAndSort, q.sort);
    DropPrefixOfConcat(FetchPrefix, afterPrefix);
    ReadIntOfRendering(q.page, afterPage);
    DropPrefixOfConcat(SizeField, afterSizeField);
    assert tail[0] == '&';
    ReadIntOfRendering(q.size, tail);
    DropPrefixOfConcat(AppendsAndSort, q.sort);
  }

  /** Different queries are requested with different URLs. */
  lemma FetchUrlInjective(a: Query, b: Query)
    requires FetchUrl(a) == FetchUrl(b)
    ensures a == b
  {
    FetchUrlRoundTrip(a);
    FetchUrlRoundTrip(b);
  }
}

=== FILE: wrappers.dfy ===
/** The optional-value datatype shared by the modules of this project. */
module Wrappers {

  /** A value that may be missing. */
  datatype Option<+T> = None | Some(value: T) {

    /** The carried value, or `default` when there is none. */
    function GetOr(default: T): T {
      match this
      case Some(v) => v
      case None => default
    }
  }
}
